=== FILE: README.md ===
# Chat router and client decisions, in Dafny

A model of the message path of a small Express + socket.io + MySQL chat
application. On the server (`server.js`) every way a message enters —
the socket events `chatMessage` and `groupMessage`, `POST /send-group-message`
and `POST /upload` — inserts a row into the `chat` table, reads that row back
joined with its sender's name, and only then broadcasts it, on the socket.io
event `chatMessage` for a direct row and `groupMessage` for a group row. Two endpoints,
`/get-messages` and `/get-group-messages`, return a conversation or a group's
messages ordered by date. Uploads are classified by file extension
(`determineFileType`). On the client (`public/client.js`) the model covers the
decisions around the DOM code: where the chat form sends (a `group_<id>` target
or a user id), what the file picker uploads, how a received message is shown,
and which users the lists offer.

Modules, one per concern:

- `Wrappers` — `Option`.
- `Text` — the JavaScript string operations used: `split` on one character,
  `.pop()` of a split, `startsWith`, `toLowerCase`, `trim`.
- `Decimal` — `String(n)` for a non-negative integer and `parseInt` on the
  decimal text it produces.
- `FileType` — `determineFileType` and the extension table.
- `Store` — the `chat` rows, the `usuarios` names, the three WHERE clauses
  with SQL's NULL comparison, the inner join, and `ORDER BY c.fecha`.
- `Router` — the four write paths as one persist-then-emit step on an
  explicit server state (table plus broadcast log), with database failure as
  a parameter (`Fault`), and the two history endpoints.
- `Client` — target encoding and decoding, the socket payloads, the chat
  form, the upload guard, `displayChatMessage`, and the user lists.
- `EndToEnd` — client sends fed to the server handlers: what a group upload
  really stores, how one's own message comes back, where a group text lands.

Conventions. Ids held by the server are text (`Store.Id`), and a missing
field or SQL NULL is `None`; the client's user ids are natural numbers that
reach the server in their decimal form. The row's date and multer's stored
file name are inputs (`now`, `storedName`). A handler runs to completion
before the next one starts.

## Model

| member | source | states |
|---|---|---|
| Text.LastSegment | server.js:194 | `.split(sep).pop()` is the separator-free suffix after the last separator, or the whole text when there is none |
| Text.StartsWith | public/client.js:374 | `startsWith` holds exactly when the prefix's characters open the text one by one, and then the text is the prefix followed by the rest |
| Text.JoinSplit | public/client.js:375 | splitting loses nothing: the pieces joined with the separator give back the input |
| Text.SplitPieces | public/client.js:375 | no piece of a split contains the separator |
| Text.SplitFirstPiece | public/client.js:375 | the first piece of a split is the longest separator-free prefix, followed by the separator unless it is the whole text |
| Text.SplitAfterPrefix | public/client.js:375 | a separator-free prefix followed by the separator splits off as the first piece |
| Text.LastSegmentLower | server.js:194 | lower-casing before or after taking the last `.`-segment gives the same extension |
| Text.Lower | server.js:194 | `toLowerCase` keeps the length and maps each character on its own, ASCII upper-case letters to lower case |
| Text.Trim | public/client.js:365 | `trim` is empty exactly for all-whitespace input; otherwise it starts and ends with non-whitespace and the input is it padded with whitespace on both sides |
| Decimal.NatToString | public/client.js:238 | `String(n)` of an id is non-empty decimal text without a leading zero |
| Decimal.ParseDecimal | public/client.js:322 | `parseInt` of decimal text without a leading zero is the number whose `String` is that text |
| Decimal.ParseNatToString | public/client.js:322 | `parseInt` of an id's decimal text gives the id back |
| Decimal.NatToStringInjective | public/client.js:436 | two ids have the same decimal text exactly when they are equal |
| FileType.DetermineFileType | server.js:193-221 | the kind is one of the five kinds, `imagen`/`audio`/`video`/`documento` exactly when the lower-cased last extension is in that group, `otro` exactly when it is in none |
| FileType.OtherKind | server.js:195-221 | the switch on the extension is total and falls to `otro` exactly for unlisted extensions |
| FileType.ImageKind | server.js:196-202 | the image branch is taken exactly for jpg, jpeg, png, gif, webp, jfif |
| FileType.AudioKind | server.js:203-206 | the audio branch is taken exactly for mp3, wav, ogg |
| FileType.VideoKind | server.js:207-210 | the video branch is taken exactly for mp4, avi, mov |
| FileType.DocumentKind | server.js:211-218 | the document branch is taken exactly for pdf, doc, docx, ppt, pptx, xls, xlsx |
| FileType.CaseInsensitive | server.js:194 | lower-casing the file name never changes its kind |
| FileType.NoDotLooksUpWholeName | server.js:194 | a name without a dot is classified by the whole name, lower-cased |
| FileType.ExtensionAfterLastDot | server.js:194 | the extension of `stem.ext` is `ext` lower-cased, whatever dots the stem holds |
| FileType.PngIsImage | server.js:194-202 | every `*.png` is an image |
| FileType.UpperCasePngIsImage | server.js:194-202 | every `*.PNG` is an image |
| FileType.Mp4IsVideo | server.js:207-210 | every `*.mp4` is a video |
| FileType.XlsxIsDocument | server.js:211-218 | every `*.xlsx` is a document |
| FileType.TarGzIsOther | server.js:194-220 | every `*.tar.gz` is `otro`: only the last extension is looked up |
| Store.Select | server.js:175-183 | a SELECT returns no more records than rows, each passing the WHERE clause and joined with its sender's name |
| Store.SelectMembership | server.js:175-183 | a record is selected exactly when its row is stored, passes the filter and its sender joins |
| Store.SelectCount | server.js:175-183 | a SELECT yields a record as often as its row is stored when the row passes the WHERE clause and joins to that record, and never otherwise |
| Store.SelectUnusedId | server.js:246-249 | reading back an id no stored row carries finds nothing |
| Store.SortByDate | server.js:181 | `ORDER BY c.fecha` yields the same records (as a multiset) in non-decreasing date order |
| Store.DirectHistoryContents | server.js:175-183 | the conversation holds exactly the joined rows whose pair is (a, b) in either order, each as often as stored, oldest first |
| Store.DirectHistorySymmetric | server.js:179-182 | asking for (b, a) gives the same list as (a, b) |
| Store.GroupHistoryContents | server.js:313-319 | a group's history holds exactly the joined rows of that group, each as often as stored, oldest first |
| Store.HistoriesAreDisjoint | server.js:236-242 | when no row names both a pair and a group, no record is in both a direct and a group history |
| Router.Insert | server.js:362-365 | the INSERT appends the draft as the next row under a fresh id and keeps ids below the counter |
| Router.ReadBackFindsNewRow | server.js:366-369 | reading back by the id just inserted gives the new row joined with its sender's name, or nothing when the sender does not join |
| Router.Persist | server.js:244-256 | no emit before the row is stored: a failure before the INSERT changes nothing, a failure after it keeps the row and emits nothing, success appends the row and emits exactly that row with its sender's name |
| Router.OnChatMessage | server.js:356-376 | the socket `chatMessage` handler is persist-then-emit of a direct row on `chatMessage` |
| Router.DirectDraft | server.js:363-365 | a socket chat row has `id_usuario1` the sender and `id_usuario2` the recipient, in that order, no group, and the payload's message and kind |
| Router.OnGroupMessage | server.js:378-398 | the socket `groupMessage` handler is persist-then-emit of a group row on `groupMessage` |
| Router.GroupDraft | server.js:385-388 | a group row carries the given group, sender, content and kind and leaves the pair NULL |
| Router.SendGroupMessage | server.js:331-350 | `/send-group-message` stores a `texto` group row, broadcasts it on `groupMessage`, answers with the record when nothing fails and 500 otherwise |
| Router.UploadDraft | server.js:235-243 | an upload row is a group row exactly when `id_grupo` is truthy, otherwise a direct row from `id_usuario` to `id_usuario_destinatario`; content is the stored path, kind is `determineFileType` of the original name |
| Router.Upload | server.js:225-262 | no file: 400 and nothing changes; otherwise persist-then-emit on the channel `id_grupo` picks, answered with the record or 500 |
| Router.UploadRoutes | server.js:235-256 | a successful upload adds one row and one event: `groupMessage` with a group row exactly when `id_grupo` is truthy, otherwise `chatMessage` with the (sender, recipient) row; content `/uploads/<stored name>`, kind from the original name, payload the row with its sender's name |
| Router.GetMessages | server.js:171-190 | 500 exactly when the query fails; otherwise exactly the joined rows of the pair, each as often as the SELECT yields it, sorted by date |
| Router.GetGroupMessages | server.js:309-327 | 500 exactly when the query fails; otherwise exactly the joined rows of the group, each as often as the SELECT yields it, sorted by date |
| Router.HandlePersistsThenEmits | server.js:331-398 | each of the four write paths is the persist-then-emit step on its own row and channel; an upload without file changes nothing |
| Router.HandleKeepsInvariants | server.js:331-398 | whatever arrives and however the database fails: no row gets both a pair and a group, table and log only grow by at most one, nothing is broadcast on failure, and every broadcast record is a stored row with its sender's name |
| Router.SentDirectMessageInHistoryOnce | server.js:356-376 | a direct message stored without failure is in its pair's history exactly once, asked for in either order |
| Router.SentGroupMessageInHistoryOnce | server.js:378-398 | a group message stored without failure is in its group's history exactly once |
| Client.DecodeTarget | public/client.js:374-378 | a target starting with `group_` goes to the group named by the text after `group_` up to the next `_` (or the end); any other target goes to that recipient unchanged |
| Client.GroupTargetRoundTrip | public/client.js:291-375 | the `group_<id>` written on selecting a group decodes back to that group and parses to the id |
| Client.UserTargetRoundTrip | public/client.js:374-377 | a user id written as the target is sent directly to that user |
| Client.Send | public/client.js:540-551 | both payloads carry the current user as sender and kind `texto`; the group payload exactly for a group target |
| Client.SubmitChatForm | public/client.js:361-381 | nothing is sent and the input is kept exactly when the message is all whitespace; otherwise the trimmed text goes to the decoded target and the input is cleared |
| Client.PrepareUpload | public/client.js:394-407 | no upload without a file or with an empty target; otherwise the target goes unchanged into `id_usuario_destinatario` and `id_usuario` is `String` of the current user's id, which parses back to it |
| Client.RenderBody | public/client.js:440-478 | `texto`, `imagen`, `audio` and `video` show the content as text, image, audio player and video player respectively; every other kind is a download link to the content named after its last `/`-piece |
| Client.DisplayChatMessage | public/client.js:428-478 | a message shows under its sender's name and date, as sent exactly when its sender is the current user, and as a download link to its content exactly for the kinds without a branch; Client.SentToOneViewer and the EndToEnd lemmas state what this means for the viewers |
| Client.SentToOneViewer | public/client.js:436 | a message shows as sent to one user only |
| Client.UploadKindsRender | public/client.js:440-478 | image, audio and video uploads show inline; documents and other files as a download |
| Client.DownloadNameIsStoredName | public/client.js:471-476 | a stored upload downloads under its stored file name |
| Client.OtherUsers | public/client.js:233-234 | the member and selection lists hold exactly the users other than the current one, each as often as listed, as a subsequence of the list (in its order) |
| Client.SelectedUsers | public/client.js:114-115 | the private-chat filter keeps exactly the users whose id was selected, each as often as listed, in list order |
| Client.DisplayedUsers | public/client.js:113-147 | the private-chat list shows exactly the selected users other than the current one |
| Client.CheckboxValues | public/client.js:238 | every member checkbox carries decimal text that parses back to its user's id |
| Client.GroupMemberIds | public/client.js:321-323 | the member list is `parseInt` of each checked box's value, in order, followed by the current user |
| Client.MembersAreCheckedPlusCurrent | public/client.js:321-323 | creating a group sends exactly the checked users' ids and then the current user's |
| Client.CurrentUserJoinsOnce | public/client.js:233-323 | when the boxes come from the member list, the current user is in the new group exactly once |
| EndToEnd.GroupUploadLandsInDirectRow | public/client.js:404-407 | a file uploaded while a group is selected is stored as a direct row to the text `group_<id>`, broadcast on `chatMessage`, and is in no group's history |
| EndToEnd.OwnMessageShowsAsSent | public/client.js:361-436 | a non-blank text sent to a user comes back trimmed, shown as sent to its author and as received to everyone else, and is in that conversation |
| EndToEnd.GroupTextReachesGroupHistory | public/client.js:374-375 | a non-blank text sent to the selected group is a `texto` record in that group's history exactly once |
| EndToEnd.UploadedFileShows | public/client.js:440-478 | an uploaded image shows as an image of its stored path; a document or other file as a download under its stored name |

## Left out

- Login, registration, `/verificar-email`, `/create-group`, `/get-users`, `/get-groups` and `/get-user-groups` on the server: they are outside the message path; the client side of group creation (the member id list) is modelled.
- The MySQL pool, `connection.release` and the connection left open when a query throws: the model only records where a handler breaks off (`Router.Fault`).
- Column types: the table's schema is not part of this model. Ids are compared as text. A database that rejects `group_<id>` in an integer column is the `FailsBeforeInsert` case; one that silently coerces it to a number is not modelled.
- The date (`fecha`) is a parameter; rows with equal dates are kept in table order, one of the orders SQL allows.
- multer's disk storage and the stored file name, which is a parameter; the file bytes are not modelled.
- socket.io delivery: the log records what `io.emit` broadcasts; fan-out to each client, reconnection, and interleaving of concurrent handlers are not modelled.
- Socket payloads without `mensaje` or `tipo`: message and kind are always strings in the model; absent ids are `None`.
- DOM construction, the unescaped interpolation of message fields into `innerHTML`, `toLocaleString` of the date, alerts, `localStorage`, and the `loadMessages`/`loadGroupMessages` fetch wrappers; `View` keeps the raw date.
- `toLowerCase` is modelled on ASCII letters only; no listed extension has a non-ASCII upper-case form, so the classification of table extensions is unaffected.
- `parseInt` is modelled only on decimal text, which is all the checkboxes hold; JavaScript number precision above 2^53 is not modelled.
- Text.Split: its own contract only says a split has at least one piece; what the pieces are is stated by Text.JoinSplit, Text.SplitPieces, Text.SplitAfterPrefix and Text.LastSegment.
- Error handling and atomicity, as the code has them: the socket handlers send no error back to the sender on failure (they only log); a stored row never names both a pair and a group, but a direct message without recipient names neither, so only "never both" is proved; and the INSERT and the read-back SELECT are not one transaction, so when the read-back fails the new row stays stored (with no broadcast and, on the HTTP paths, a 500).

=== FILE: client.dfy ===
/** The decisions public/client.js makes around its DOM code: what the chat
    form sends and where, what the file input uploads, how a received message
    is shown, and which users the lists offer. */
module Client {
  import opened Wrappers
  import opened Text
  import opened Decimal
  import opened Store
  import opened FileType

  // ---------------------------------------------------------------------
  // The recipient input (`usuario-destinatario`)
  // ---------------------------------------------------------------------

  const GroupPrefix := "group_"

  /** What clicking a user writes into the recipient input: the user's id. */
  function UserTarget(id: nat): string {
    NatToString(id)
  }

  /** What clicking a group writes into the recipient input: `group_<id>`. */
  function GroupTarget(id: nat): string {
    GroupPrefix + NatToString(id)
  }

  /** Where the chat form sends: a group id, or a direct recipient. */
  datatype Target = ToGroup(group: string) | ToUser(recipient: string)

  /** A value starting with `group_` names the group in its second `_`-separated
      piece; any other value is the direct recipient itself. */
  function DecodeTarget(t: string): (r: Target)
    ensures r.ToGroup? <==> StartsWith(t, GroupPrefix)
    ensures r.ToGroup? ==> '_' !in r.group
    ensures r.ToGroup? ==>
      var rest := t[|GroupPrefix|..];
      && |r.group| <= |rest| && rest[..|r.group|] == r.group
      && (|r.group| < |rest| ==> rest[|r.group|] == '_')
    ensures r.ToUser? ==> r.recipient == t
  {
    if StartsWith(t, GroupPrefix) then
      assert t == "group" + ['_'] + t[6..];
      SplitAfterPrefix("group", t[6..], '_');
      SplitPieces(t, '_');
      SplitFirstPiece(t[6..], '_');
      ToGroup(Split(t, '_')[1])
    else ToUser(t)
  }

  /** Selecting a group and sending decodes back to that group's id. */
  lemma GroupTargetRoundTrip(id: nat)
    ensures DecodeTarget(GroupTarget(id)) == ToGroup(NatToString(id))
    ensures ParseDecimal(DecodeTarget(GroupTarget(id)).group) == id
  {
    NatToStringHasNo(id, '_');
    assert GroupTarget(id) == "group" + ['_'] + NatToString(id);
    SplitAfterPrefix("group", NatToString(id), '_');
    SplitWithoutSep(NatToString(id), '_');
    ParseNatToString(id);
  }

  /** Selecting a user and sending addresses that user directly. */
  lemma UserTargetRoundTrip(id: nat)
    ensures DecodeTarget(UserTarget(id)) == ToUser(NatToString(id))
  {
    assert IsDigit(NatToString(id)[0]);
  }

  // ---------------------------------------------------------------------
  // Socket sends (`sendMessage`, `sendGroupMessage`) and the chat form
  // ---------------------------------------------------------------------

  /** `{id_usuario, mensaje, id_usuario_destinatario, tipo}` emitted on `'chatMessage'`. */
  datatype ChatPayload = ChatPayload(sender: nat, message: string, recipient: string, kind: string)

  /** `{id_usuario, mensaje, id_grupo, tipo}` emitted on `'groupMessage'`. */
  datatype GroupPayload = GroupPayload(sender: nat, message: string, group: string, kind: string)

  datatype SocketEmit = EmitChat(chat: ChatPayload) | EmitGroup(groupMessage: GroupPayload) {
    function Sender(): nat {
      match this
      case EmitChat(p) => p.sender
      case EmitGroup(p) => p.sender
    }
    function Message(): string {
      match this
      case EmitChat(p) => p.message
      case EmitGroup(p) => p.message
    }
    function Kind(): string {
      match this
      case EmitChat(p) => p.kind
      case EmitGroup(p) => p.kind
    }
  }

  /** `sendMessage` / `sendGroupMessage`: the current user as sender, always a text kind. */
  function Send(currentUser: nat, message: string, target: Target): (e: SocketEmit)
    ensures e.Sender() == currentUser && e.Kind() == PlainText && e.Message() == message
    ensures target.ToGroup? <==> e.EmitGroup?
    ensures e.EmitGroup? ==> e.groupMessage.group == target.group
    ensures e.EmitChat? ==> e.chat.recipient == target.recipient
  {
    match target
    case ToGroup(g) => EmitGroup(GroupPayload(currentUser, message, g, PlainText))
    case ToUser(t) => EmitChat(ChatPayload(currentUser, message, t, PlainText))
  }

  /** What a submit of the chat form emits, and what the message input holds afterwards. */
  datatype Submitted = Submitted(emitted: Option<SocketEmit>, inputAfter: string)

  /** Submitting the chat form: nothing is sent (and the input is left as it was)
      when the message is only whitespace; otherwise the trimmed message is sent
      to the decoded target and the input is cleared. */
  function SubmitChatForm(input: string, target: string, currentUser: nat): (r: Submitted)
    ensures r.emitted.None? <==> AllWhitespace(input)
    ensures r.emitted.None? ==> r.inputAfter == input
    ensures r.emitted.Some? ==>
      && r.inputAfter == ""
      && r.emitted.value == Send(currentUser, Trim(input), DecodeTarget(target))
      && r.emitted.value.Message() != ""
      && !IsJsWhitespace(r.emitted.value.Message()[0])
  {
    var message := Trim(input);
    if message == "" then Submitted(None, input)
    else Submitted(Some(Send(currentUser, message, DecodeTarget(target))), "")
  }

  // ---------------------------------------------------------------------
  // The file input
  // ---------------------------------------------------------------------

  /** The file chosen in the picker. */
  datatype ClientFile = ClientFile(name: string)

  /** The FormData posted to `/upload`: the file, `id_usuario` and
      `id_usuario_destinatario`. There is no `id_grupo` field. */
  datatype UploadForm = UploadForm(file: ClientFile, senderField: string, recipientField: string)

  /** The upload guard: no request without a file or with an empty recipient
      input; otherwise the recipient input goes, unchanged, into
      `id_usuario_destinatario` (a group's `group_<id>` included). */
  function PrepareUpload(file: Option<ClientFile>, target: string, currentUser: nat): (r: Option<UploadForm>)
    ensures r.None? <==> file.None? || target == ""
    ensures r.Some? ==> r.value.file == file.value && r.value.recipientField == target
    ensures r.Some? ==> IsDecimal(r.value.senderField) && ParseDecimal(r.value.senderField) == currentUser
    ensures r.Some? ==> r.value.senderField == NatToString(currentUser)
  {
    if file.None? || target == "" then None
    else
      ParseNatToString(currentUser);
      Some(UploadForm(file.value, NatToString(currentUser), target))
  }

  // ---------------------------------------------------------------------
  // displayChatMessage
  // ---------------------------------------------------------------------

  datatype Side = Sent | Received

  /** The message body variants: text, image, audio player, video player, download link. */
  datatype Body =
    | TextBody(text: string)
    | ImageBody(src: string)
    | AudioBody(audioSrc: string)
    | VideoBody(videoSrc: string)
    | DownloadBody(href: string, fileName: string)

  datatype View = View(side: Side, author: string, body: Body, date: int)

  /** The kinds with a dedicated branch; every other kind is offered for download. */
  const InlineKinds: set<string> := {PlainText, Image, Audio, Video}

  /** The `switch (message.tipo)`; the download branch names the file after the
      last `/`-separated piece of the content. */
  function RenderBody(kind: string, content: string): (b: Body)
    ensures b.DownloadBody? <==> kind !in InlineKinds
    ensures kind == PlainText ==> b == TextBody(content)
    ensures kind == Image ==> b == ImageBody(content)
    ensures kind == Audio ==> b == AudioBody(content)
    ensures kind == Video ==> b == VideoBody(content)
    ensures b.DownloadBody? ==>
      && b.href == content
      && '/' !in b.fileName
      && |b.fileName| <= |content| && content[|content| - |b.fileName|..] == b.fileName
      && (|b.fileName| < |content| ==> content[|content| - |b.fileName| - 1] == '/')
  {
    match kind
    case "texto" => TextBody(content)
    case "imagen" => ImageBody(content)
    case "audio" => AudioBody(content)
    case "video" => VideoBody(content)
    case _ => DownloadBody(content, LastSegment(content, '/'))
  }

  /** `displayChatMessage`: a message is shown under its sender's name and date,
      on the sent side only to its author, with the body its kind selects. The side
      compares `message.id_usuario === currentUser.id`, with ids held in their decimal form. */
  function DisplayChatMessage(e: Enriched, currentUser: nat): (v: View)
    ensures v.author == e.senderName && v.date == e.row.date
    ensures v.side == Sent <==> e.row.sender == Some(NatToString(currentUser))
    ensures v.body.DownloadBody? <==> e.row.kind !in InlineKinds
    ensures v.body.DownloadBody? ==> v.body.href == e.row.content
  {
    var side := if e.row.sender == Some(NatToString(currentUser)) then Sent else Received;
    View(side, e.senderName, RenderBody(e.row.kind, e.row.content), e.row.date)
  }

  /** A message is shown as sent to exactly one user: its sender. */
  lemma SentToOneViewer(e: Enriched, u: nat, v: nat)
    requires DisplayChatMessage(e, u).side == Sent && DisplayChatMessage(e, v).side == Sent
    ensures u == v
  {
    NatToStringInjective(u, v);
  }

  /** Every kind an upload is classified as shows as itself, except documents and
      other files, which get the download link. */
  lemma UploadKindsRender(kind: string, content: string)
    requires kind in FileKinds
    ensures kind == Image ==> RenderBody(kind, content) == ImageBody(content)
    ensures kind == Audio ==> RenderBody(kind, content) == AudioBody(content)
    ensures kind == Video ==> RenderBody(kind, content) == VideoBody(content)
    ensures kind == Document || kind == Other ==> RenderBody(kind, content).DownloadBody?
  {
  }

  /** A stored upload is offered for download under its stored file name. */
  lemma DownloadNameIsStoredName(kind: string, storedName: string)
    requires kind !in InlineKinds
    requires '/' !in storedName
    ensures RenderBody(kind, "/uploads/" + storedName) == DownloadBody("/uploads/" + storedName, storedName)
  {
    assert "/uploads/" + storedName == "/uploads" + ['/'] + storedName;
    LastSegmentAfterSep("/uploads", storedName, '/');
  }

  // ---------------------------------------------------------------------
  // User lists and group members
  // ---------------------------------------------------------------------

  /** A user as `/get-users` lists them. */
  datatype UserEntry = UserEntry(id: nat, name: string)

  /** `a` is `b` with some elements left out, the rest in their order. */
  predicate Subsequence<T(==)>(a: seq<T>, b: seq<T>)
    decreases |b|
  {
    if |a| == 0 then true
    else if |b| == 0 then false
    else (a[0] == b[0] && Subsequence(a[1..], b[1..])) || Subsequence(a, b[1..])
  }

  /** Everybody except the current user, in list order: the chat list, the group
      member checkboxes and the private-chat checkboxes all skip the current user. */
  function OtherUsers(users: seq<UserEntry>, currentUser: nat): (r: seq<UserEntry>)
    ensures forall u :: u in r <==> u in users && u.id != currentUser
    ensures forall u :: multiset(r)[u] == if u.id != currentUser then multiset(users)[u] else 0
    ensures Subsequence(r, users)
    ensures |r| <= |users|
    decreases |users|
  {
    if |users| == 0 then []
    else
      var rest := OtherUsers(users[1..], currentUser);
      assert users == [users[0]] + users[1..];
      if users[0].id != currentUser then
        assert ([users[0]] + rest)[1..] == rest;
        [users[0]] + rest
      else rest
  }

  /** Users whose id is among `selected`, in list order. */
  function SelectedUsers(users: seq<UserEntry>, selected: seq<nat>): (r: seq<UserEntry>)
    ensures forall u :: u in r <==> u in users && u.id in selected
    ensures forall u :: multiset(r)[u] == if u.id in selected then multiset(users)[u] else 0
    ensures Subsequence(r, users)
    ensures |r| <= |users|
    decreases |users|
  {
    if |users| == 0 then []
    else
      var rest := SelectedUsers(users[1..], selected);
      assert users == [users[0]] + users[1..];
      if users[0].id in selected then
        assert ([users[0]] + rest)[1..] == rest;
        [users[0]] + rest
      else rest
  }

  /** The private-chat list: the stored selection, without the current user. */
  function DisplayedUsers(users: seq<UserEntry>, selected: seq<nat>, currentUser: nat): (r: seq<UserEntry>)
    ensures forall u :: u in r <==> u in users && u.id in selected && u.id != currentUser
  {
    OtherUsers(SelectedUsers(users, selected), currentUser)
  }

  /** The values of the checked member boxes: each box carries its user's id. */
  function CheckboxValues(checked: seq<UserEntry>): (values: seq<string>)
    ensures |values| == |checked|
    ensures forall i :: 0 <= i < |values| ==> IsDecimal(values[i]) && ParseDecimal(values[i]) == checked[i].id
  {
    ParseEachId(checked);
    seq(|checked|, i requires 0 <= i < |checked| => NatToString(checked[i].id))
  }

  /** `parseInt` of each checked box's value, then the current user appended. */
  function GroupMemberIds(checkedValues: seq<string>, currentUser: nat): (ids: seq<nat>)
    requires forall i :: 0 <= i < |checkedValues| ==> IsDecimal(checkedValues[i])
    ensures |ids| == |checkedValues| + 1 && ids[|checkedValues|] == currentUser
    ensures forall i :: 0 <= i < |checkedValues| ==> IsDecimal(checkedValues[i]) && ids[i] == ParseDecimal(checkedValues[i])
  {
    seq(|checkedValues|, i requires 0 <= i < |checkedValues| && IsDecimal(checkedValues[i]) => ParseDecimal(checkedValues[i]))
      + [currentUser]
  }

  lemma ParseEachId(checked: seq<UserEntry>)
    ensures forall i :: 0 <= i < |checked| ==> ParseDecimal(NatToString(checked[i].id)) == checked[i].id
  {
    forall i | 0 <= i < |checked| ensures ParseDecimal(NatToString(checked[i].id)) == checked[i].id {
      ParseNatToString(checked[i].id);
    }
  }

  function Ids(us: seq<UserEntry>): seq<nat> {
    seq(|us|, i requires 0 <= i < |us| => us[i].id)
  }

  /** Creating a group sends exactly the checked users' ids followed by the current user's. */
  lemma MembersAreCheckedPlusCurrent(checked: seq<UserEntry>, currentUser: nat)
    ensures GroupMemberIds(CheckboxValues(checked), currentUser) == Ids(checked) + [currentUser]
  {
  }

  /** When the checked users come from the member list, the current user is in the
      new group exactly once. */
  lemma {:induction false} CurrentUserJoinsOnce(users: seq<UserEntry>, checked: seq<UserEntry>, currentUser: nat)
    requires forall i :: 0 <= i < |checked| ==> checked[i] in OtherUsers(users, currentUser)
    ensures multiset(Ids(checked) + [currentUser])[currentUser] == 1
  {
    CurrentUserNotAmong(checked, currentUser);
  }

  lemma {:induction false} CurrentUserNotAmong(checked: seq<UserEntry>, currentUser: nat)
    requires forall i :: 0 <= i < |checked| ==> checked[i].id != currentUser
    ensures multiset(Ids(checked))[currentUser] == 0
    decreases |checked|
  {
    if |checked| > 0 {
      CurrentUserNotAmong(checked[1..], currentUser);
      assert Ids(checked) == [checked[0].id] + Ids(checked[1..]);
    }
  }
}

=== FILE: decimal.dfy ===
/** Decimal rendering and parsing of non-negative ids: JavaScript's `String(n)`
    (and `${n}`) on the client side, `parseInt` of such a rendering back. */
module Decimal {

  predicate IsDigit(c: char) {
    '0' <= c <= '9'
  }

  /** A non-empty run of decimal digits. */
  predicate IsDecimal(s: string) {
    |s| >= 1 && forall i :: 0 <= i < |s| ==> IsDigit(s[i])
  }

  function DigitChar(d: nat): (c: char)
    requires d < 10
    ensures IsDigit(c)
  {
    ('0' as int + d) as char
  }

  function DigitValue(c: char): (d: nat)
    requires IsDigit(c)
    ensures d < 10 && DigitChar(d) == c
  {
    c as int - '0' as int
  }

  /** `String(n)` for a non-negative integer: digits, no leading zero. */
  function NatToString(n: nat): (s: string)
    ensures IsDecimal(s)
    ensures |s| > 1 ==> s[0] != '0'
    decreases n
  {
    if n < 10 then [DigitChar(n)] else NatToString(n / 10) + [DigitChar(n % 10)]
  }

  /** `parseInt(s, 10)` of a digit string. */
  function ParseDecimal(s: string): (n: nat)
    requires forall i :: 0 <= i < |s| ==> IsDigit(s[i])
    ensures IsDecimal(s) && (|s| > 1 ==> s[0] != '0') ==> NatToString(n) == s
    decreases |s|
  {
    if |s| == 0 then 0
    else
      var init := s[..|s| - 1];
      var n := ParseDecimal(init) * 10 + DigitValue(s[|s| - 1]);
      assert |s| > 1 ==> init[0] == s[0] && init + [s[|s| - 1]] == s;
      n
  }

  /** Parsing a rendered id gives the id back. */
  lemma {:induction false} ParseNatToString(n: nat)
    ensures ParseDecimal(NatToString(n)) == n
    decreases n
  {
    var s := NatToString(n);
    if n < 10 {
      assert s[..0] == [];
    } else {
      ParseNatToString(n / 10);
      assert s[..|s| - 1] == NatToString(n / 10);
      assert DigitValue(s[|s| - 1]) == n % 10;
    }
  }

  /** Distinct ids render differently. */
  lemma NatToStringInjective(m: nat, n: nat)
    ensures NatToString(m) == NatToString(n) <==> m == n
  {
    if NatToString(m) == NatToString(n) {
      ParseNatToString(m);
      ParseNatToString(n);
    }
  }

  /** A rendered id holds no character other than a digit. */
  lemma NatToStringHasNo(n: nat, c: char)
    requires !IsDigit(c)
    ensures c !in NatToString(n)
  {
  }
}

=== FILE: end_to_end.dfy ===
/** The client's sends as the server receives them, and what comes back. */
module EndToEnd {
  import opened Wrappers
  import opened Text
  import opened Decimal
  import opened Store
  import opened FileType
  import opened Router
  import opened Client

  /** A socket `'chatMessage'` emit as the server handler reads it; ids are stored in their decimal form. */
  function ChatDataOf(p: ChatPayload): ChatData {
    ChatData(Some(NatToString(p.sender)), Some(p.recipient), p.message, p.kind)
  }

  /** A socket `'groupMessage'` emit as the server handler reads it. */
  function GroupDataOf(p: GroupPayload): GroupData {
    GroupData(Some(NatToString(p.sender)), Some(p.group), p.message, p.kind)
  }

  /** The client's upload form as `/upload` reads it: no `id_grupo` field arrives,
      and multer names the stored file. */
  function UploadRequestOf(form: UploadForm, storedName: string): UploadRequest {
    UploadRequest(Some(form.senderField), Some(form.recipientField), None, Some(UploadedFile(form.file.name, storedName)))
  }

  /** Uploading while a group is selected stores a direct row addressed to the
      literal text `group_<id>`, broadcast on `'chatMessage'`; the file never
      reaches the group's history. */
  lemma {:induction false} GroupUploadLandsInDirectRow(srv: Server, users: Users, currentUser: nat, file: ClientFile,
                                                     groupId: nat, storedName: string, now: int, g: Option<Id>, e: Enriched)
    requires ValidStore(srv.store)
    ensures var form := PrepareUpload(Some(file), GroupTarget(groupId), currentUser);
      && form.Some?
      && var o := Upload(srv, users, UploadRequestOf(form.value, storedName), Healthy, now);
      && |o.server.store.rows| == |srv.store.rows| + 1
      && var row := o.server.store.rows[|srv.store.rows|];
      && row.group.None?
      && row.user1 == Some(NatToString(currentUser))
      && row.user2 == Some(GroupTarget(groupId))
      && o.server.log == srv.log + [Event(ChatMessage, Join(users, row))]
      && (e.row == row ==> e !in GroupHistory(o.server.store, users, g))
  {
    var form := PrepareUpload(Some(file), GroupTarget(groupId), currentUser);
    var req := UploadRequestOf(form.value, storedName);
    assert !Truthy(req.group);
    var o := Upload(srv, users, req, Healthy, now);
    GroupHistoryContents(o.server.store, users, g, e);
  }

  /** A text typed by a registered user and sent to a user is broadcast as the
      trimmed text, shown as sent to its author and as received to everyone else. */
  lemma OwnMessageShowsAsSent(srv: Server, users: Users, currentUser: nat, input: string, recipient: nat, now: int, other: nat)
    requires ValidStore(srv.store)
    requires NatToString(currentUser) in users
    requires !AllWhitespace(input)
    requires other != currentUser
    ensures var sub := SubmitChatForm(input, UserTarget(recipient), currentUser);
      && sub.emitted.Some? && sub.emitted.value.EmitChat?
      && var o := OnChatMessage(srv, users, ChatDataOf(sub.emitted.value.chat), Healthy, now);
      && o.delivery.Delivered? && o.delivery.payload.Some?
      && var e := o.delivery.payload.value;
      && DisplayChatMessage(e, currentUser) == View(Sent, users[NatToString(currentUser)], TextBody(Trim(input)), now)
      && DisplayChatMessage(e, other).side == Received
      && e in DirectHistory(o.server.store, users, Some(NatToString(recipient)), Some(NatToString(currentUser)))
  {
    UserTargetRoundTrip(recipient);
    NatToStringInjective(currentUser, other);
    var sub := SubmitChatForm(input, UserTarget(recipient), currentUser);
    var data := ChatDataOf(sub.emitted.value.chat);
    SentDirectMessageInHistoryOnce(srv, users, data, now);
  }

  /** A text sent to the selected group reaches that group's history exactly once. */
  lemma GroupTextReachesGroupHistory(srv: Server, users: Users, currentUser: nat, input: string, groupId: nat, now: int)
    requires ValidStore(srv.store)
    requires NatToString(currentUser) in users
    requires !AllWhitespace(input)
    ensures var sub := SubmitChatForm(input, GroupTarget(groupId), currentUser);
      && sub.emitted.Some? && sub.emitted.value.EmitGroup?
      && var o := OnGroupMessage(srv, users, GroupDataOf(sub.emitted.value.groupMessage), Healthy, now);
      && o.delivery.Delivered? && o.delivery.payload.Some?
      && o.delivery.payload.value.row.kind == PlainText
      && multiset(GroupHistory(o.server.store, users, Some(NatToString(groupId))))[o.delivery.payload.value] == 1
  {
    GroupTargetRoundTrip(groupId);
    var sub := SubmitChatForm(input, GroupTarget(groupId), currentUser);
    SentGroupMessageInHistoryOnce(srv, users, GroupDataOf(sub.emitted.value.groupMessage), now);
  }

  /** An upload from the client is shown by its kind: documents and other files as a
      download named after the stored file. */
  lemma UploadedFileShows(srv: Server, users: Users, currentUser: nat, file: ClientFile, recipient: nat,
                          storedName: string, now: int)
    requires ValidStore(srv.store)
    requires NatToString(currentUser) in users
    requires '/' !in storedName
    ensures var form := PrepareUpload(Some(file), UserTarget(recipient), currentUser);
      && form.Some?
      && var o := Upload(srv, users, UploadRequestOf(form.value, storedName), Healthy, now);
      && o.response.Record? && o.response.record.Some?
      && var body := DisplayChatMessage(o.response.record.value, currentUser).body;
      && (DetermineFileType(file.name) == Image ==> body == ImageBody(UploadPath(storedName)))
      && (DetermineFileType(file.name) in {Document, Other} ==> body == DownloadBody(UploadPath(storedName), storedName))
  {
    var kind := DetermineFileType(file.name);
    UploadKindsRender(kind, UploadPath(storedName));
    if kind in {Document, Other} {
      DownloadNameIsStoredName(kind, storedName);
    }
  }
}

=== FILE: file_type.dfy ===
/** The server's classification of an uploaded file by its extension
    (`determineFileType` in server.js). */
module FileType {
  import opened Text

  /** The kind of a typed text message; never the kind of an upload. */
  const PlainText := "texto"

  const Image := "imagen"
  const Audio := "audio"
  const Video := "video"
  const Document := "documento"
  const Other := "otro"

  /** The five kinds an upload can be stored with. */
  const FileKinds: set<string> := {Image, Audio, Video, Document, Other}

  const ImageExtensions: set<string> := {"jpg", "jpeg", "png", "gif", "webp", "jfif"}
  const AudioExtensions: set<string> := {"mp3", "wav", "ogg"}
  const VideoExtensions: set<string> := {"mp4", "avi", "mov"}
  const DocumentExtensions: set<string> := {"pdf", "doc", "docx", "ppt", "pptx", "xls", "xlsx"}

  const KnownExtensions := ImageExtensions + AudioExtensions + VideoExtensions + DocumentExtensions

  /** `filename.split('.').pop().toLowerCase()`. */
  function Extension(filename: string): string {
    Lower(LastSegment(filename, '.'))
  }

  /** The `switch` on the lower-cased extension. */
  function KindOfExtension(ext: string): string {
    match ext
    case "jpg" | "jpeg" | "png" | "gif" | "webp" | "jfif" => Image
    case "mp3" | "wav" | "ogg" => Audio
    case "mp4" | "avi" | "mov" => Video
    case "pdf" | "doc" | "docx" | "ppt" | "pptx" | "xls" | "xlsx" => Document
    case _ => Other
  }

  /** The kind recorded for an upload named `filename`: one of the five kinds,
      chosen by which extension group the lower-cased extension belongs to. */
  function DetermineFileType(filename: string): (kind: string)
    ensures kind in FileKinds
    ensures kind == Image <==> Extension(filename) in ImageExtensions
    ensures kind == Audio <==> Extension(filename) in AudioExtensions
    ensures kind == Video <==> Extension(filename) in VideoExtensions
    ensures kind == Document <==> Extension(filename) in DocumentExtensions
    ensures kind == Other <==> Extension(filename) !in KnownExtensions
  {
    var ext := Extension(filename);
    OtherKind(ext);
    KindOfExtension(ext)
  }

  /** The image branch of the switch is taken exactly for the image extensions. */
  lemma ImageKind(ext: string)
    ensures KindOfExtension(ext) == Image <==> ext in ImageExtensions
  {
  }

  lemma AudioKind(ext: string)
    ensures KindOfExtension(ext) == Audio <==> ext in AudioExtensions
  {
  }

  lemma VideoKind(ext: string)
    ensures KindOfExtension(ext) == Video <==> ext in VideoExtensions
  {
  }

  lemma DocumentKind(ext: string)
    ensures KindOfExtension(ext) == Document <==> ext in DocumentExtensions
  {
  }

  /** The switch is total over the five kinds, and falls through to `otro`
      exactly for the extensions no group lists. */
  lemma OtherKind(ext: string)
    ensures KindOfExtension(ext) in FileKinds
    ensures KindOfExtension(ext) == Image <==> ext in ImageExtensions
    ensures KindOfExtension(ext) == Audio <==> ext in AudioExtensions
    ensures KindOfExtension(ext) == Video <==> ext in VideoExtensions
    ensures KindOfExtension(ext) == Document <==> ext in DocumentExtensions
    ensures KindOfExtension(ext) == Other <==> ext !in KnownExtensions
  {
    ImageKind(ext);
    AudioKind(ext);
    VideoKind(ext);
    DocumentKind(ext);
  }

  /** Matching is case-insensitive: lower-casing the name never changes its kind. */
  lemma {:induction false} CaseInsensitive(filename: string)
    ensures DetermineFileType(Lower(filename)) == DetermineFileType(filename)
  {
    LastSegmentLower(filename, '.');
    LowerIdempotent(LastSegment(filename, '.'));
  }

  /** A name without a dot is looked up as a whole. */
  lemma NoDotLooksUpWholeName(filename: string)
    requires '.' !in filename
    ensures DetermineFileType(filename) == KindOfExtension(Lower(filename))
  {
  }

  /** The extension of `stem.ext` is `ext`, lower-cased. */
  lemma ExtensionAfterLastDot(stem: string, ext: string)
    requires '.' !in ext
    ensures Extension(stem + "." + ext) == Lower(ext)
  {
    LastSegmentAfterSep(stem, ext, '.');
  }

  /** Any name ending in `.png` is an image. */
  lemma PngIsImage(stem: string)
    ensures DetermineFileType(stem + ".png") == Image
  {
    ExtensionAfterLastDot(stem, "png");
    assert stem + "." + "png" == stem + ".png";
    LowerKeepsLowercase("png");
  }

  /** So is any name ending in `.PNG`. */
  lemma UpperCasePngIsImage(stem: string)
    ensures DetermineFileType(stem + ".PNG") == Image
  {
    ExtensionAfterLastDot(stem, "PNG");
    assert stem + "." + "PNG" == stem + ".PNG";
    assert Lower("PNG") == "png";
  }

  /** Any name ending in `.mp4` is a video. */
  lemma Mp4IsVideo(stem: string)
    ensures DetermineFileType(stem + ".mp4") == Video
  {
    ExtensionAfterLastDot(stem, "mp4");
    assert stem + "." + "mp4" == stem + ".mp4";
    LowerKeepsLowercase("mp4");
  }

  /** Any name ending in `.xlsx` is a document. */
  lemma XlsxIsDocument(stem: string)
    ensures DetermineFileType(stem + ".xlsx") == Document
  {
    ExtensionAfterLastDot(stem, "xlsx");
    assert stem + "." + "xlsx" == stem + ".xlsx";
    LowerKeepsLowercase("xlsx");
  }

  /** Only the last extension counts: a `.tar.gz` archive is something else. */
  lemma TarGzIsOther(stem: string)
    ensures DetermineFileType(stem + ".tar.gz") == Other
  {
    TarGzExtension(stem);
    assert KindOfExtension("gz") == Other;
  }

  lemma TarGzExtension(stem: string)
    ensures Extension(stem + ".tar.gz") == "gz"
  {
    var archive := stem + ".tar";
    ExtensionAfterLastDot(archive, "gz");
    assert archive + "." + "gz" == archive + ".gz";
    assert stem + ".tar.gz" == archive + ".gz";
    LowerKeepsLowercase("gz");
  }
}

=== FILE: router.dfy ===
/** The server's write paths: the socket `chatMessage` / `groupMessage`
    handlers and the `/upload` and `/send-group-message` endpoints, each of
    which inserts a row, reads it back joined with its sender's name and
    broadcasts it; plus the two history endpoints. */
module Router {
  import opened Wrappers
  import opened Store
  import opened FileType

  /** The two broadcast events, `'chatMessage'` and `'groupMessage'`. */
  datatype Channel = ChatMessage | GroupMessage

  /** One `io.emit(channel, payload)`; the payload is `rows[0]` of the read-back,
      `None` when that SELECT found nothing (`undefined`). */
  datatype Event = Event(channel: Channel, payload: Option<Enriched>)

  /** The table plus everything broadcast so far. */
  datatype Server = Server(store: Store, log: seq<Event>)

  /** Where a handler's database work breaks off: not at all, at the connection
      or INSERT (nothing written), or at the read-back SELECT (row written). */
  datatype Fault = Healthy | FailsBeforeInsert | FailsAfterInsert

  /** The columns a handler's INSERT sets; the table adds `id` and `fecha`. */
  datatype Draft = Draft(
    user1: Option<Id>,
    user2: Option<Id>,
    sender: Option<Id>,
    content: string,
    kind: string,
    group: Option<Id>)
  {
    function AsRow(id: nat, date: int): Row {
      Row(id, user1, user2, sender, content, kind, group, date)
    }
  }

  /** Whether a handler's broadcast went out, and with which payload. */
  datatype Delivery = NotDelivered | Delivered(payload: Option<Enriched>)

  datatype Outcome = Outcome(server: Server, delivery: Delivery)

  /** The persist-then-emit contract every write path keeps: a failure before the
      INSERT changes nothing; a failure after it keeps the row but emits nothing;
      success appends the row and then broadcasts that row joined with its
      sender's name (nothing if the join is empty). */
  ghost predicate PersistsThenEmits(srv: Server, users: Users, d: Draft, ch: Channel, fault: Fault, now: int, o: Outcome) {
    var row := d.AsRow(srv.store.nextId, now);
    match fault
    case FailsBeforeInsert =>
      o.server == srv && o.delivery == NotDelivered
    case FailsAfterInsert =>
      && o.server.store.rows == srv.store.rows + [row]
      && o.server.log == srv.log
      && o.delivery == NotDelivered
    case Healthy =>
      && o.server.store.rows == srv.store.rows + [row]
      && o.server.log == srv.log + [Event(ch, Join(users, row))]
      && o.delivery == Delivered(Join(users, row))
  }

  /** `INSERT INTO chat ...`: the draft becomes the next row, under the next id. */
  function Insert(st: Store, d: Draft, now: int): (st': Store)
    requires ValidStore(st)
    ensures ValidStore(st')
    ensures st'.rows == st.rows + [d.AsRow(st.nextId, now)]
  {
    Store(st.rows + [d.AsRow(st.nextId, now)], st.nextId + 1)
  }

  /** `rows[0]` of `SELECT c.*, u.nombre ... WHERE c.id = id`; `None` for `undefined`. */
  function ReadBack(st: Store, users: Users, id: nat): Option<Enriched> {
    var found := Select(st.rows, users, WithId(id));
    if |found| > 0 then Some(found[0]) else None
  }

  /** Reading back by the id just inserted finds the new row joined with its
      sender's name, or nothing when the sender does not join. */
  lemma ReadBackFindsNewRow(st: Store, users: Users, d: Draft, now: int)
    requires ValidStore(st)
    ensures ReadBack(Insert(st, d, now), users, st.nextId) == Join(users, d.AsRow(st.nextId, now))
  {
    var row := d.AsRow(st.nextId, now);
    SelectUnusedId(st.rows, users, row.id);
    SelectAppend(st.rows, users, WithId(row.id), row);
  }

  /** INSERT, then `SELECT ... WHERE c.id = insertId`, then `io.emit(ch, rows[0])`. */
  function Persist(srv: Server, users: Users, d: Draft, ch: Channel, fault: Fault, now: int): (o: Outcome)
    requires ValidStore(srv.store)
    ensures ValidStore(o.server.store)
    ensures PersistsThenEmits(srv, users, d, ch, fault, now, o)
  {
    match fault
    case FailsBeforeInsert => Outcome(srv, NotDelivered)
    case FailsAfterInsert => Outcome(Server(Insert(srv.store, d, now), srv.log), NotDelivered)
    case Healthy =>
      var store := Insert(srv.store, d, now);
      var payload := ReadBack(store, users, srv.store.nextId);
      ReadBackFindsNewRow(srv.store, users, d, now);
      Outcome(Server(store, srv.log + [Event(ch, payload)]), Delivered(payload))
  }

  // ---------------------------------------------------------------------
  // Requests
  // ---------------------------------------------------------------------

  /** Socket `chatMessage` data: `{id_usuario, id_usuario_destinatario, mensaje, tipo}`. */
  datatype ChatData = ChatData(sender: Option<Id>, recipient: Option<Id>, message: string, kind: string)

  /** Socket `groupMessage` data: `{id_usuario, id_grupo, mensaje, tipo}`. */
  datatype GroupData = GroupData(sender: Option<Id>, group: Option<Id>, message: string, kind: string)

  /** The file multer stored: the client's `originalname` and the stored `filename`. */
  datatype UploadedFile = UploadedFile(originalName: string, storedName: string)

  /** `/upload` form fields `id_usuario`, `id_usuario_destinatario`, `id_grupo` and the file part. */
  datatype UploadRequest = UploadRequest(
    sender: Option<Id>,
    recipient: Option<Id>,
    group: Option<Id>,
    file: Option<UploadedFile>)

  /** An HTTP answer: a single record (`res.json(rows[0])`, `None` for `undefined`),
      a list of records, or an error status. */
  datatype Response = Record(record: Option<Enriched>) | Records(records: seq<Enriched>) | Status(code: nat)

  datatype HttpOutcome = HttpOutcome(server: Server, response: Response)

  /** JavaScript truthiness of a form field: present and not the empty string. */
  predicate Truthy(field: Option<Id>) {
    field.Some? && field.value != ""
  }

  /** Stored upload path: `/uploads/` followed by the stored file name. */
  function UploadPath(storedName: string): string {
    "/uploads/" + storedName
  }

  // ---------------------------------------------------------------------
  // Write paths
  // ---------------------------------------------------------------------

  /** Socket `chatMessage`: a direct row from sender to recipient, broadcast on `'chatMessage'`. */
  function OnChatMessage(srv: Server, users: Users, data: ChatData, fault: Fault, now: int): (o: Outcome)
    requires ValidStore(srv.store)
    ensures ValidStore(o.server.store)
    ensures PersistsThenEmits(srv, users, DirectDraft(data), ChatMessage, fault, now, o)
  {
    Persist(srv, users, DirectDraft(data), ChatMessage, fault, now)
  }

  /** The row a socket `chatMessage` inserts: the pair (sender, recipient), no group. */
  function DirectDraft(data: ChatData): (d: Draft)
    ensures NeverBoth(d.user1, d.user2, d.group)
    ensures d.group.None? && d.user1 == d.sender
    ensures d.user1 == data.sender && d.user2 == data.recipient
    ensures d.content == data.message && d.kind == data.kind
  {
    Draft(data.sender, data.recipient, data.sender, data.message, data.kind, None)
  }

  /** Socket `groupMessage`: a group row, broadcast on `'groupMessage'`. */
  function OnGroupMessage(srv: Server, users: Users, data: GroupData, fault: Fault, now: int): (o: Outcome)
    requires ValidStore(srv.store)
    ensures ValidStore(o.server.store)
    ensures PersistsThenEmits(srv, users, GroupDraft(data.sender, data.group, data.message, data.kind), GroupMessage, fault, now, o)
  {
    Persist(srv, users, GroupDraft(data.sender, data.group, data.message, data.kind), GroupMessage, fault, now)
  }

  /** A group row: the group set, the user pair left NULL. */
  function GroupDraft(sender: Option<Id>, group: Option<Id>, content: string, kind: string): (d: Draft)
    ensures NeverBoth(d.user1, d.user2, d.group)
    ensures d.user1.None? && d.user2.None?
    ensures d.group == group && d.sender == sender && d.content == content && d.kind == kind
  {
    Draft(None, None, sender, content, kind, group)
  }

  /** `/send-group-message`: a group text row, broadcast on `'groupMessage'`,
      answered with the record or 500. */
  function SendGroupMessage(srv: Server, users: Users, sender: Option<Id>, group: Option<Id>, message: string, fault: Fault, now: int): (o: HttpOutcome)
    requires ValidStore(srv.store)
    ensures ValidStore(o.server.store)
    ensures fault == Healthy <==> o.response.Record?
    ensures fault != Healthy ==> o.response == Status(500)
    ensures PersistsThenEmits(srv, users, GroupDraft(sender, group, message, PlainText), GroupMessage, fault, now,
      Outcome(o.server, if o.response.Record? then Delivered(o.response.record) else NotDelivered))
  {
    var out := Persist(srv, users, GroupDraft(sender, group, message, PlainText), GroupMessage, fault, now);
    match out.delivery
    case Delivered(p) => HttpOutcome(out.server, Record(p))
    case NotDelivered => HttpOutcome(out.server, Status(500))
  }

  /** The row an upload inserts: a group row when `id_grupo` is truthy, otherwise a
      direct row from `id_usuario` to `id_usuario_destinatario`; the content is the
      stored path and the kind comes from the client's file name. */
  function UploadDraft(req: UploadRequest, file: UploadedFile): (d: Draft)
    ensures NeverBoth(d.user1, d.user2, d.group)
    ensures Truthy(req.group) ==> d.group == req.group && d.user1.None? && d.user2.None?
    ensures !Truthy(req.group) ==> d.group.None? && d.user1 == req.sender && d.user2 == req.recipient
    ensures d.sender == req.sender
    ensures d.content == UploadPath(file.storedName)
    ensures d.kind == DetermineFileType(file.originalName) && d.kind in FileKinds
  {
    var kind := DetermineFileType(file.originalName);
    if Truthy(req.group) then GroupDraft(req.sender, req.group, UploadPath(file.storedName), kind)
    else Draft(req.sender, req.recipient, req.sender, UploadPath(file.storedName), kind, None)
  }

  function UploadChannel(req: UploadRequest): Channel {
    if Truthy(req.group) then GroupMessage else ChatMessage
  }

  /** `/upload`: 400 without a file; otherwise persist-then-emit on the channel the
      group field picks, answered with the record or 500. */
  function Upload(srv: Server, users: Users, req: UploadRequest, fault: Fault, now: int): (o: HttpOutcome)
    requires ValidStore(srv.store)
    ensures ValidStore(o.server.store)
    ensures req.file.None? ==> o.server == srv && o.response == Status(400)
    ensures req.file.Some? ==> (fault == Healthy <==> o.response.Record?)
    ensures req.file.Some? && fault != Healthy ==> o.response == Status(500)
    ensures req.file.Some? ==>
      PersistsThenEmits(srv, users, UploadDraft(req, req.file.value), UploadChannel(req), fault, now,
        Outcome(o.server, if o.response.Record? then Delivered(o.response.record) else NotDelivered))
  {
    match req.file
    case None => HttpOutcome(srv, Status(400))
    case Some(file) =>
      var out := Persist(srv, users, UploadDraft(req, file), UploadChannel(req), fault, now);
      match out.delivery
      case Delivered(p) => HttpOutcome(out.server, Record(p))
      case NotDelivered => HttpOutcome(out.server, Status(500))
  }

  /** A successful upload stores one row and broadcasts one event: on
      `'groupMessage'` with a group row exactly when `id_grupo` is truthy, otherwise
      on `'chatMessage'` with a direct row from `id_usuario` to
      `id_usuario_destinatario`; the event carries that row with its sender's name. */
  lemma UploadRoutes(srv: Server, users: Users, req: UploadRequest, now: int)
    requires ValidStore(srv.store) && req.file.Some?
    ensures var o := Upload(srv, users, req, Healthy, now);
      && |o.server.store.rows| == |srv.store.rows| + 1
      && |o.server.log| == |srv.log| + 1
      && var row := o.server.store.rows[|srv.store.rows|];
      && var event := o.server.log[|srv.log|];
      && (event.channel == GroupMessage <==> Truthy(req.group))
      && (Truthy(req.group) ==> row.group == req.group && row.user1.None? && row.user2.None?)
      && (!Truthy(req.group) ==> row.group.None? && row.user1 == req.sender && row.user2 == req.recipient)
      && row.sender == req.sender
      && row.content == UploadPath(req.file.value.storedName)
      && row.kind == DetermineFileType(req.file.value.originalName)
      && event.payload == Join(users, row)
      && o.response == Record(event.payload)
  {
  }

  // ---------------------------------------------------------------------
  // Read paths
  // ---------------------------------------------------------------------

  /** `/get-messages?id_usuario1=a&id_usuario2=b`: the conversation, or 500 when the query fails. */
  function GetMessages(srv: Server, users: Users, a: Option<Id>, b: Option<Id>, fails: bool): (r: Response)
    ensures fails <==> r == Status(500)
    ensures !fails ==> r.Records? && SortedByDate(r.records)
    ensures !fails ==> forall e :: e in r.records <==> e.row in srv.store.rows && Matches(Conversation(a, b), e.row) && Join(users, e.row) == Some(e)
    ensures !fails ==> multiset(r.records) == multiset(Select(srv.store.rows, users, Conversation(a, b)))
  {
    if fails then Status(500)
    else
      var h := DirectHistory(srv.store, users, a, b);
      assert forall e :: e in h <==> e.row in srv.store.rows && Matches(Conversation(a, b), e.row) && Join(users, e.row) == Some(e) by {
        forall e ensures e in h <==> e.row in srv.store.rows && Matches(Conversation(a, b), e.row) && Join(users, e.row) == Some(e) {
          DirectHistoryContents(srv.store, users, a, b, e);
        }
      }
      Records(h)
  }

  /** `/get-group-messages?id_grupo=g`: the group's messages, or 500 when the query fails. */
  function GetGroupMessages(srv: Server, users: Users, g: Option<Id>, fails: bool): (r: Response)
    ensures fails <==> r == Status(500)
    ensures !fails ==> r.Records? && SortedByDate(r.records)
    ensures !fails ==> forall e :: e in r.records <==> e.row in srv.store.rows && SqlEq(e.row.group, g) && Join(users, e.row) == Some(e)
    ensures !fails ==> multiset(r.records) == multiset(Select(srv.store.rows, users, InGroup(g)))
  {
    if fails then Status(500)
    else
      var h := GroupHistory(srv.store, users, g);
      assert forall e :: e in h <==> e.row in srv.store.rows && SqlEq(e.row.group, g) && Join(users, e.row) == Some(e) by {
        forall e ensures e in h <==> e.row in srv.store.rows && SqlEq(e.row.group, g) && Join(users, e.row) == Some(e) {
          GroupHistoryContents(srv.store, users, g, e);
        }
      }
      Records(h)
  }

  // ---------------------------------------------------------------------
  // All write paths together
  // ---------------------------------------------------------------------

  /** Every inbound message, whichever door it comes through. */
  datatype Request =
    | SocketChat(chat: ChatData)
    | SocketGroup(groupData: GroupData)
    | PostGroupMessage(sender: Option<Id>, group: Option<Id>, message: string)
    | PostUpload(upload: UploadRequest)

  function Handle(srv: Server, users: Users, req: Request, fault: Fault, now: int): (o: Server)
    requires ValidStore(srv.store)
    ensures ValidStore(o.store)
  {
    match req
    case SocketChat(data) => OnChatMessage(srv, users, data, fault, now).server
    case SocketGroup(data) => OnGroupMessage(srv, users, data, fault, now).server
    case PostGroupMessage(sender, group, message) => SendGroupMessage(srv, users, sender, group, message, fault, now).server
    case PostUpload(upload) => Upload(srv, users, upload, fault, now).server
  }

  /** Every broadcast record is a row of the table joined with its sender's name. */
  ghost predicate BroadcastsArePersisted(srv: Server, users: Users) {
    forall i :: 0 <= i < |srv.log| && srv.log[i].payload.Some? ==>
      var e := srv.log[i].payload.value;
      e.row in srv.store.rows && Join(users, e.row) == Some(e)
  }

  /** The draft a request inserts, when it inserts one. */
  function RequestDraft(req: Request): (d: Option<Draft>)
    ensures d.Some? ==> NeverBoth(d.value.user1, d.value.user2, d.value.group)
  {
    match req
    case SocketChat(data) => Some(DirectDraft(data))
    case SocketGroup(data) => Some(GroupDraft(data.sender, data.group, data.message, data.kind))
    case PostGroupMessage(sender, group, message) => Some(GroupDraft(sender, group, message, PlainText))
    case PostUpload(upload) => if upload.file.Some? then Some(UploadDraft(upload, upload.file.value)) else None
  }

  function RequestChannel(req: Request): Channel {
    match req
    case SocketChat(_) => ChatMessage
    case SocketGroup(_) => GroupMessage
    case PostGroupMessage(_, _, _) => GroupMessage
    case PostUpload(upload) => UploadChannel(upload)
  }

  /** Each write path is the persist-then-emit step on its own draft and channel. */
  lemma HandlePersistsThenEmits(srv: Server, users: Users, req: Request, fault: Fault, now: int)
    requires ValidStore(srv.store)
    ensures RequestDraft(req).None? ==> Handle(srv, users, req, fault, now) == srv
    ensures RequestDraft(req).Some? ==>
      exists delivery :: PersistsThenEmits(srv, users, RequestDraft(req).value, RequestChannel(req), fault, now,
        Outcome(Handle(srv, users, req, fault, now), delivery))
  {
    var o := Handle(srv, users, req, fault, now);
    match req
    case SocketChat(data) =>
      var out := OnChatMessage(srv, users, data, fault, now);
      assert PersistsThenEmits(srv, users, RequestDraft(req).value, RequestChannel(req), fault, now, Outcome(o, out.delivery));
    case SocketGroup(data) =>
      var out := OnGroupMessage(srv, users, data, fault, now);
      assert PersistsThenEmits(srv, users, RequestDraft(req).value, RequestChannel(req), fault, now, Outcome(o, out.delivery));
    case PostGroupMessage(sender, group, message) =>
      var h := SendGroupMessage(srv, users, sender, group, message, fault, now);
      var delivery := if h.response.Record? then Delivered(h.response.record) else NotDelivered;
      assert PersistsThenEmits(srv, users, RequestDraft(req).value, RequestChannel(req), fault, now, Outcome(o, delivery));
    case PostUpload(upload) =>
      var h := Upload(srv, users, upload, fault, now);
      if upload.file.Some? {
        var delivery := if h.response.Record? then Delivered(h.response.record) else NotDelivered;
        assert PersistsThenEmits(srv, users, RequestDraft(req).value, RequestChannel(req), fault, now, Outcome(o, delivery));
      }
  }

  /** Whatever arrives and however the database behaves: no row ever gets both a
      user pair and a group; the table only grows, by at most the one row; the
      broadcast log only grows, by at most one event and only when nothing failed;
      and every broadcast record is a stored row joined with its sender's name. */
  lemma {:induction false} HandleKeepsInvariants(srv: Server, users: Users, req: Request, fault: Fault, now: int)
    requires ValidStore(srv.store)
    requires ConversationsApart(srv.store.rows)
    requires BroadcastsArePersisted(srv, users)
    ensures var o := Handle(srv, users, req, fault, now);
      && ConversationsApart(o.store.rows)
      && BroadcastsArePersisted(o, users)
      && srv.store.rows <= o.store.rows && |o.store.rows| <= |srv.store.rows| + 1
      && srv.log <= o.log && |o.log| <= |srv.log| + 1
      && (fault != Healthy ==> o.log == srv.log)
  {
    var o := Handle(srv, users, req, fault, now);
    HandlePersistsThenEmits(srv, users, req, fault, now);
    if RequestDraft(req).Some? {
      var d := RequestDraft(req).value;
      var row := d.AsRow(srv.store.nextId, now);
      var delivery :| PersistsThenEmits(srv, users, d, RequestChannel(req), fault, now, Outcome(o, delivery));
      if fault != FailsBeforeInsert {
        assert o.store.rows == srv.store.rows + [row];
        assert ConversationsApart(o.store.rows) by {
          forall i | 0 <= i < |o.store.rows| ensures NeverBoth(o.store.rows[i].user1, o.store.rows[i].user2, o.store.rows[i].group) {
            if i < |srv.store.rows| {
              assert o.store.rows[i] == srv.store.rows[i];
            }
          }
        }
        assert BroadcastsArePersisted(o, users) by {
          forall i | 0 <= i < |o.log| && o.log[i].payload.Some?
            ensures o.log[i].payload.value.row in o.store.rows && Join(users, o.log[i].payload.value.row) == Some(o.log[i].payload.value)
          {
            if i < |srv.log| {
              assert o.log[i] == srv.log[i];
              assert srv.log[i].payload.value.row in srv.store.rows;
            } else {
              assert o.log[i].payload == Join(users, row);
              assert row in o.store.rows;
            }
          }
        }
      }
    }
  }

  /** A direct message stored and broadcast without failure appears, exactly once,
      in the history of its pair, asked for in either order. */
  lemma {:induction false} SentDirectMessageInHistoryOnce(srv: Server, users: Users, data: ChatData, now: int)
    requires ValidStore(srv.store)
    requires data.sender.Some? && data.sender.value in users && data.recipient.Some?
    ensures var o := OnChatMessage(srv, users, data, Healthy, now);
      && o.delivery.Delivered? && o.delivery.payload.Some?
      && multiset(DirectHistory(o.server.store, users, data.sender, data.recipient))[o.delivery.payload.value] == 1
      && multiset(DirectHistory(o.server.store, users, data.recipient, data.sender))[o.delivery.payload.value] == 1
  {
    var o := OnChatMessage(srv, users, data, Healthy, now);
    var row := DirectDraft(data).AsRow(srv.store.nextId, now);
    var e := Enriched(row, users[data.sender.value]);
    var f := Conversation(data.sender, data.recipient);
    assert Matches(f, row);
    SelectAppend(srv.store.rows, users, f, row);
    NotYetSelected(srv.store.rows, users, f, e);
    DirectHistorySymmetric(o.server.store, users, data.sender, data.recipient);
  }

  /** A group message stored and broadcast without failure appears, exactly once,
      in its group's history. */
  lemma {:induction false} SentGroupMessageInHistoryOnce(srv: Server, users: Users, data: GroupData, now: int)
    requires ValidStore(srv.store)
    requires data.sender.Some? && data.sender.value in users && data.group.Some?
    ensures var o := OnGroupMessage(srv, users, data, Healthy, now);
      && o.delivery.Delivered? && o.delivery.payload.Some?
      && multiset(GroupHistory(o.server.store, users, data.group))[o.delivery.payload.value] == 1
  {
    var o := OnGroupMessage(srv, users, data, Healthy, now);
    var row := GroupDraft(data.sender, data.group, data.message, data.kind).AsRow(srv.store.nextId, now);
    var e := Enriched(row, users[data.sender.value]);
    var f := InGroup(data.group);
    assert Matches(f, row);
    SelectAppend(srv.store.rows, users, f, row);
    NotYetSelected(srv.store.rows, users, f, e);
  }

  /** A record whose row carries an id the table has not handed out yet is not selected. */
  lemma NotYetSelected(rows: seq<Row>, users: Users, f: Filter, e: Enriched)
    requires forall i :: 0 <= i < |rows| ==> rows[i].id < e.row.id
    ensures multiset(Select(rows, users, f))[e] == 0
  {
    SelectMembership(rows, users, f, e);
  }
}

=== FILE: store.dfy ===
/** The `chat` table, the `usuarios` names it is joined with, and the
    SELECTs server.js runs over them. */
module Store {
  import opened Wrappers

  /** An id as the store compares it (user, recipient or group), in its text form. */
  type Id = string

  /** One `chat` row. A direct message fills `user1`/`user2` (`id_usuario1`,
      `id_usuario2`), a group message fills `group` (`id_grupo`); `sender` is
      `id_usuario`, `content` is `contenido`, `kind` is `tipo`, `date` is `fecha`. */
  datatype Row = Row(
    id: nat,
    user1: Option<Id>,
    user2: Option<Id>,
    sender: Option<Id>,
    content: string,
    kind: string,
    group: Option<Id>,
    date: int)

  /** A row joined with its sender's name (`c.*, u.nombre AS nombre_usuario`). */
  datatype Enriched = Enriched(row: Row, senderName: string)

  /** `usuarios`: id to `nombre`. */
  type Users = map<Id, string>

  /** The table and the next auto-increment id. */
  datatype Store = Store(rows: seq<Row>, nextId: nat)

  /** Every row's id was handed out before `nextId`. */
  predicate ValidStore(st: Store) {
    forall i :: 0 <= i < |st.rows| ==> st.rows[i].id < st.nextId
  }

  /** Columns that never name both a user pair and a group. */
  predicate NeverBoth(user1: Option<Id>, user2: Option<Id>, group: Option<Id>) {
    group.None? || (user1.None? && user2.None?)
  }

  /** Every row belongs to a user pair or to a group, never to both. */
  predicate ConversationsApart(rows: seq<Row>) {
    forall i :: 0 <= i < |rows| ==> NeverBoth(rows[i].user1, rows[i].user2, rows[i].group)
  }

  // ---------------------------------------------------------------------
  // WHERE clauses
  // ---------------------------------------------------------------------

  /** SQL's `column = ?`: NULL on either side never matches. */
  predicate SqlEq(column: Option<Id>, param: Option<Id>) {
    column.Some? && param.Some? && column.value == param.value
  }

  /** The three WHERE clauses server.js uses on `chat`. */
  datatype Filter =
    | Conversation(a: Option<Id>, b: Option<Id>)  // (id_usuario1 = a AND id_usuario2 = b) OR (id_usuario1 = b AND id_usuario2 = a)
    | InGroup(g: Option<Id>)                       // id_grupo = g
    | WithId(id: nat)                              // c.id = insertId

  predicate Matches(f: Filter, r: Row) {
    match f
    case Conversation(a, b) =>
      (SqlEq(r.user1, a) && SqlEq(r.user2, b)) || (SqlEq(r.user1, b) && SqlEq(r.user2, a))
    case InGroup(g) => SqlEq(r.group, g)
    case WithId(id) => r.id == id
  }

  /** `JOIN usuarios u ON c.id_usuario = u.id`: the row with its sender's name, or
      nothing when the sender is NULL or not a user (the inner join drops it). */
  function Join(users: Users, r: Row): Option<Enriched> {
    if r.sender.Some? && r.sender.value in users then Some(Enriched(r, users[r.sender.value])) else None
  }

  /** `SELECT c.*, u.nombre AS nombre_usuario FROM chat c JOIN usuarios u ... WHERE f`, in table order. */
  function Select(rows: seq<Row>, users: Users, f: Filter): (out: seq<Enriched>)
    ensures |out| <= |rows|
    ensures forall i :: 0 <= i < |out| ==> Matches(f, out[i].row) && Join(users, out[i].row) == Some(out[i])
    decreases |rows|
  {
    if |rows| == 0 then []
    else
      var rest := Select(rows[..|rows| - 1], users, f);
      var r := rows[|rows| - 1];
      if Matches(f, r) && Join(users, r).Some? then rest + [Join(users, r).value] else rest
  }

  /** A record is selected exactly when its row is in the table, passes the
      filter and joins with its sender. */
  lemma {:induction false} SelectMembership(rows: seq<Row>, users: Users, f: Filter, e: Enriched)
    ensures e in Select(rows, users, f) <==> e.row in rows && Matches(f, e.row) && Join(users, e.row) == Some(e)
    decreases |rows|
  {
    if |rows| > 0 {
      SelectMembership(rows[..|rows| - 1], users, f, e);
      assert rows == rows[..|rows| - 1] + [rows[|rows| - 1]];
    }
  }

  /** A record is selected as often as its row is stored, when the row passes the
      filter and joins to that record, and not at all otherwise. */
  lemma {:induction false} SelectCount(rows: seq<Row>, users: Users, f: Filter, e: Enriched)
    ensures multiset(Select(rows, users, f))[e]
      == if Matches(f, e.row) && Join(users, e.row) == Some(e) then multiset(rows)[e.row] else 0
    decreases |rows|
  {
    if |rows| > 0 {
      var init := rows[..|rows| - 1];
      SelectCount(init, users, f, e);
      assert rows == init + [rows[|rows| - 1]];
    }
  }

  /** Appending a row extends the selection by that row's record when it qualifies. */
  lemma SelectAppend(rows: seq<Row>, users: Users, f: Filter, r: Row)
    ensures Select(rows + [r], users, f)
      == Select(rows, users, f) + (if Matches(f, r) && Join(users, r).Some? then [Join(users, r).value] else [])
  {
    assert (rows + [r])[..|rows|] == rows;
  }

  /** Two filters that agree on every row of the table select the same records. */
  lemma {:induction false} SelectSameFilter(rows: seq<Row>, users: Users, f: Filter, g: Filter)
    requires forall i :: 0 <= i < |rows| ==> (Matches(f, rows[i]) <==> Matches(g, rows[i]))
    ensures Select(rows, users, f) == Select(rows, users, g)
    decreases |rows|
  {
    if |rows| > 0 {
      SelectSameFilter(rows[..|rows| - 1], users, f, g);
    }
  }

  /** No row of a valid table carries the id the table hands out next. */
  lemma {:induction false} SelectUnusedId(rows: seq<Row>, users: Users, id: nat)
    requires forall i :: 0 <= i < |rows| ==> rows[i].id < id
    ensures Select(rows, users, WithId(id)) == []
    decreases |rows|
  {
    if |rows| > 0 {
      SelectUnusedId(rows[..|rows| - 1], users, id);
    }
  }

  // ---------------------------------------------------------------------
  // ORDER BY c.fecha
  // ---------------------------------------------------------------------

  predicate SortedByDate(s: seq<Enriched>) {
    forall i, j :: 0 <= i < j < |s| ==> s[i].row.date <= s[j].row.date
  }

  /** Places `x` before the first record dated no earlier than it. */
  function InsertByDate(x: Enriched, s: seq<Enriched>): (r: seq<Enriched>)
    requires SortedByDate(s)
    ensures SortedByDate(r)
    ensures multiset(r) == multiset(s) + multiset{x}
    ensures |r| == |s| + 1
    decreases |s|
  {
    if |s| == 0 || x.row.date <= s[0].row.date then [x] + s
    else
      var tail := InsertByDate(x, s[1..]);
      InsertBehindHead(x, s, tail);
      [s[0]] + tail
  }

  /** When `x` is later than the head, inserting it into the rest and putting the
      head back in front keeps the order and the contents. */
  lemma InsertBehindHead(x: Enriched, s: seq<Enriched>, tail: seq<Enriched>)
    requires |s| > 0 && SortedByDate(s) && s[0].row.date < x.row.date
    requires SortedByDate(tail) && multiset(tail) == multiset(s[1..]) + multiset{x}
    ensures SortedByDate([s[0]] + tail)
    ensures multiset([s[0]] + tail) == multiset(s) + multiset{x}
  {
    assert s == [s[0]] + s[1..];
    forall j | 0 <= j < |tail| ensures s[0].row.date <= tail[j].row.date {
      assert tail[j] in multiset(tail);
      if tail[j] != x {
        assert tail[j] in multiset(s[1..]);
        var k :| 0 <= k < |s[1..]| && s[1..][k] == tail[j];
        assert s[k + 1] == tail[j];
      }
    }
  }

  /** `ORDER BY c.fecha`: the same records, in non-decreasing date order.
      SQL leaves the order of equal dates open; this one keeps table order. */
  function SortByDate(s: seq<Enriched>): (r: seq<Enriched>)
    ensures SortedByDate(r)
    ensures multiset(r) == multiset(s)
    ensures |r| == |s|
    decreases |s|
  {
    if |s| == 0 then []
    else
      assert s == [s[0]] + s[1..];
      InsertByDate(s[0], SortByDate(s[1..]))
  }

  // ---------------------------------------------------------------------
  // History queries
  // ---------------------------------------------------------------------

  /** `/get-messages`: the conversation between `a` and `b`, oldest first. */
  function DirectHistory(st: Store, users: Users, a: Option<Id>, b: Option<Id>): seq<Enriched> {
    SortByDate(Select(st.rows, users, Conversation(a, b)))
  }

  /** `/get-group-messages`: the messages of group `g`, oldest first. */
  function GroupHistory(st: Store, users: Users, g: Option<Id>): seq<Enriched> {
    SortByDate(Select(st.rows, users, InGroup(g)))
  }

  /** Direct history holds exactly the joined rows whose pair is (a, b) in
      either order, each as often as the table holds it, oldest first. */
  lemma DirectHistoryContents(st: Store, users: Users, a: Option<Id>, b: Option<Id>, e: Enriched)
    ensures SortedByDate(DirectHistory(st, users, a, b))
    ensures e in DirectHistory(st, users, a, b) <==>
      && e.row in st.rows
      && ((SqlEq(e.row.user1, a) && SqlEq(e.row.user2, b)) || (SqlEq(e.row.user1, b) && SqlEq(e.row.user2, a)))
      && Join(users, e.row) == Some(e)
    ensures multiset(DirectHistory(st, users, a, b)) == multiset(Select(st.rows, users, Conversation(a, b)))
    ensures multiset(DirectHistory(st, users, a, b))[e]
      == if Matches(Conversation(a, b), e.row) && Join(users, e.row) == Some(e) then multiset(st.rows)[e.row] else 0
  {
    var sel := Select(st.rows, users, Conversation(a, b));
    SelectMembership(st.rows, users, Conversation(a, b), e);
    SelectCount(st.rows, users, Conversation(a, b), e);
    assert e in DirectHistory(st, users, a, b) <==> e in multiset(sel);
  }

  /** The conversation is undirected: asking for (b, a) gives the same list as (a, b). */
  lemma DirectHistorySymmetric(st: Store, users: Users, a: Option<Id>, b: Option<Id>)
    ensures DirectHistory(st, users, a, b) == DirectHistory(st, users, b, a)
  {
    SelectSameFilter(st.rows, users, Conversation(a, b), Conversation(b, a));
  }

  /** Group history holds exactly the joined rows of group `g`, oldest first. */
  lemma GroupHistoryContents(st: Store, users: Users, g: Option<Id>, e: Enriched)
    ensures SortedByDate(GroupHistory(st, users, g))
    ensures e in GroupHistory(st, users, g) <==>
      e.row in st.rows && SqlEq(e.row.group, g) && Join(users, e.row) == Some(e)
    ensures multiset(GroupHistory(st, users, g)) == multiset(Select(st.rows, users, InGroup(g)))
    ensures multiset(GroupHistory(st, users, g))[e]
      == if SqlEq(e.row.group, g) && Join(users, e.row) == Some(e) then multiset(st.rows)[e.row] else 0
  {
    var sel := Select(st.rows, users, InGroup(g));
    SelectMembership(st.rows, users, InGroup(g), e);
    SelectCount(st.rows, users, InGroup(g), e);
    assert e in GroupHistory(st, users, g) <==> e in multiset(sel);
  }

  /** A row that never names a user pair is in no direct history, and one that
      never names a group is in no group history. */
  lemma HistoriesAreDisjoint(st: Store, users: Users, a: Option<Id>, b: Option<Id>, g: Option<Id>, e: Enriched)
    requires ConversationsApart(st.rows)
    ensures !(e in DirectHistory(st, users, a, b) && e in GroupHistory(st, users, g))
  {
    DirectHistoryContents(st, users, a, b, e);
    GroupHistoryContents(st, users, g, e);
  }
}

=== FILE: text.dfy ===
/** The JavaScript string operations the chat code relies on: `split(sep)`,
    `.pop()` of the split, `startsWith`, `toLowerCase` and `trim`. */
module Text {

  /** Last element of a non-empty sequence (JavaScript's `Array.prototype.pop` result). */
  function Last<T>(xs: seq<T>): T
    requires |xs| > 0
  {
    xs[|xs| - 1]
  }

  /** `s.startsWith(prefix)`: the characters of `prefix` open `s`, one by one. */
  function StartsWith(s: string, prefix: string): (b: bool)
    ensures b <==> |prefix| <= |s| && forall i :: 0 <= i < |prefix| ==> s[i] == prefix[i]
    ensures b ==> s == prefix + s[|prefix|..]
  {
    |prefix| <= |s| && s[..|prefix|] == prefix
  }

  // ---------------------------------------------------------------------
  // split / join
  // ---------------------------------------------------------------------

  /** `s.split(sep)` for a one-character separator: the maximal pieces of `s`
      between occurrences of `sep`, always at least one (`"".split(".")` is `[""]`). */
  function Split(s: string, sep: char): (parts: seq<string>)
    ensures |parts| >= 1
    decreases |s|
  {
    if |s| == 0 then [""]
    else
      var rest := Split(s[1..], sep);
      if s[0] == sep then [""] + rest
      else [[s[0]] + rest[0]] + rest[1..]
  }

  /** No piece contains the separator. */
  lemma {:induction false} SplitPieces(s: string, sep: char)
    ensures forall i :: 0 <= i < |Split(s, sep)| ==> sep !in Split(s, sep)[i]
    decreases |s|
  {
    if |s| > 0 {
      SplitPieces(s[1..], sep);
    }
  }

  /** Text without the separator is a single piece. */
  lemma {:induction false} SplitWithoutSep(s: string, sep: char)
    requires sep !in s
    ensures Split(s, sep) == [s]
    decreases |s|
  {
    if |s| > 0 {
      SplitWithoutSep(s[1..], sep);
      assert [s[0]] + s[1..] == s;
    }
  }

  /** The first piece is the longest separator-free prefix: it is followed by the
      separator unless it is all of `s`. */
  lemma {:induction false} SplitFirstPiece(s: string, sep: char)
    ensures var p := Split(s, sep)[0];
      |p| <= |s| && s[..|p|] == p && (|p| < |s| ==> s[|p|] == sep)
    decreases |s|
  {
    if |s| > 0 && s[0] != sep {
      SplitFirstPiece(s[1..], sep);
      assert Split(s, sep)[0] == [s[0]] + Split(s[1..], sep)[0];
    }
  }

  /** `parts.join(sep)`: the inverse of Split. */
  function JoinWith(sep: char, parts: seq<string>): string
    requires |parts| >= 1
    decreases |parts|
  {
    if |parts| == 1 then parts[0] else parts[0] + [sep] + JoinWith(sep, parts[1..])
  }

  /** Splitting loses nothing: joining the pieces back with the separator gives the input. */
  lemma {:induction false} JoinSplit(s: string, sep: char)
    ensures JoinWith(sep, Split(s, sep)) == s
    decreases |s|
  {
    if |s| > 0 {
      var rest := Split(s[1..], sep);
      JoinSplit(s[1..], sep);
      var parts := Split(s, sep);
      if s[0] == sep {
        assert parts == [""] + rest;
        assert parts[1..] == rest;
        assert [sep] + s[1..] == s;
      } else if |rest| == 1 {
        assert parts == [[s[0]] + rest[0]];
        assert [s[0]] + s[1..] == s;
      } else {
        assert parts[1..] == rest[1..];
        assert JoinWith(sep, rest) == rest[0] + [sep] + JoinWith(sep, rest[1..]);
        assert [s[0]] + s[1..] == s;
      }
    }
  }

  /** A piece free of the separator, followed by the separator, splits off as the first piece. */
  lemma {:induction false} SplitAfterPrefix(a: string, b: string, sep: char)
    requires sep !in a
    ensures Split(a + [sep] + b, sep) == [a] + Split(b, sep)
    decreases |a|
  {
    var s := a + [sep] + b;
    if |a| == 0 {
      assert s[0] == sep;
      assert s[1..] == b;
    } else {
      assert s[0] == a[0];
      assert s[1..] == a[1..] + [sep] + b;
      SplitAfterPrefix(a[1..], b, sep);
      var rest := Split(s[1..], sep);
      assert rest == [a[1..]] + Split(b, sep);
      assert Split(s, sep) == [[a[0]] + rest[0]] + rest[1..];
      assert [a[0]] + a[1..] == a;
      assert rest[1..] == Split(b, sep);
    }
  }

  /** `last` is a suffix of `s` preceded by `sep`, or is all of `s` exactly when
      it is the only piece. */
  predicate SuffixAfterSep(s: string, last: string, sep: char, single: bool) {
    && |last| <= |s|
    && last == s[|s| - |last|..]
    && (|last| < |s| ==> s[|s| - |last| - 1] == sep)
    && (single <==> last == s)
  }

  /** The last piece of a split is a suffix of the input that is preceded by the
      separator, or is the whole input exactly when there is a single piece. */
  lemma {:induction false} LastPieceIsSuffix(s: string, sep: char)
    ensures SuffixAfterSep(s, Last(Split(s, sep)), sep, |Split(s, sep)| == 1)
    decreases |s|
  {
    var parts := Split(s, sep);
    if |s| == 0 {
      assert parts == [""];
    } else {
      var c, t := s[0], s[1..];
      LastPieceIsSuffix(t, sep);
      var rest := Split(t, sep);
      assert s == [c] + t;
      if c == sep {
        assert parts == [""] + rest;
        SuffixAfterSeparator(c, t, Last(rest), sep, |rest| == 1);
        assert Last(parts) == Last(rest);
      } else if |rest| == 1 {
        assert parts == [[c] + rest[0]];
        assert Last(parts) == s;
      } else {
        assert parts == [[c] + rest[0]] + rest[1..];
        SuffixAfterSeparator(c, t, Last(rest), sep, false);
        assert Last(parts) == Last(rest);
      }
      assert SuffixAfterSep(s, Last(parts), sep, |parts| == 1);
    }
  }

  /** Putting a character in front keeps a proper suffix a proper suffix. */
  lemma SuffixAfterSeparator(c: char, t: string, last: string, sep: char, single: bool)
    requires SuffixAfterSep(t, last, sep, single)
    requires c == sep || !single
    ensures SuffixAfterSep([c] + t, last, sep, false)
  {
    var s := [c] + t;
    assert s[|s| - |last|..] == t[|t| - |last|..];
    if |last| < |t| {
      assert s[|s| - |last| - 1] == t[|t| - |last| - 1];
    }
  }

  /** `(s.split(sep)).pop()`: the text after the last `sep`, or all of `s` when it has none. */
  function LastSegment(s: string, sep: char): (r: string)
    ensures sep !in r
    ensures |r| <= |s| && r == s[|s| - |r|..]
    ensures |r| < |s| ==> s[|s| - |r| - 1] == sep
    ensures sep !in s ==> r == s
  {
    LastPieceIsSuffix(s, sep);
    SplitPieces(s, sep);
    Last(Split(s, sep))
  }

  /** Whatever precedes the last separator, the last segment is what follows it. */
  lemma LastSegmentAfterSep(prefix: string, name: string, sep: char)
    requires sep !in name
    ensures LastSegment(prefix + [sep] + name, sep) == name
  {
    var s := prefix + [sep] + name;
    var r := LastSegment(s, sep);
    assert s[|s| - |name| - 1] == sep;
    assert s[|s| - |name|..] == name;
  }

  // ---------------------------------------------------------------------
  // toLowerCase
  // ---------------------------------------------------------------------

  predicate IsUpperAscii(c: char) {
    'A' <= c <= 'Z'
  }

  predicate IsAsciiLetter(c: char) {
    IsUpperAscii(c) || 'a' <= c <= 'z'
  }

  function LowerChar(c: char): char {
    if IsUpperAscii(c) then (c as int + 32) as char else c
  }

  /** `s.toLowerCase()` restricted to ASCII letters. */
  function Lower(s: string): (r: string)
    ensures |r| == |s|
    ensures forall i :: 0 <= i < |s| ==> r[i] == LowerChar(s[i])
  {
    seq(|s|, i requires 0 <= i < |s| => LowerChar(s[i]))
  }

  lemma LowerIdempotent(s: string)
    ensures Lower(Lower(s)) == Lower(s)
  {
  }

  /** Text without upper-case ASCII letters is its own lower-case form. */
  lemma LowerKeepsLowercase(s: string)
    requires forall i :: 0 <= i < |s| ==> !IsUpperAscii(s[i])
    ensures Lower(s) == s
  {
  }

  lemma LowerConcat(a: string, b: string)
    ensures Lower(a + b) == Lower(a) + Lower(b)
  {
  }

  /** Each piece lower-cased. */
  function LowerEach(parts: seq<string>): (r: seq<string>)
    ensures |r| == |parts|
    ensures forall i :: 0 <= i < |parts| ==> r[i] == Lower(parts[i])
  {
    seq(|parts|, i requires 0 <= i < |parts| => Lower(parts[i]))
  }

  /** Split of a text with a first character in front. */
  lemma SplitCons(c: char, t: string, sep: char)
    ensures Split([c] + t, sep)
      == if c == sep then [""] + Split(t, sep) else [[c] + Split(t, sep)[0]] + Split(t, sep)[1..]
  {
    assert ([c] + t)[1..] == t;
  }

  lemma LowerEachCons(c: char, rest: seq<string>)
    requires |rest| >= 1
    ensures LowerEach([[c] + rest[0]] + rest[1..]) == [[LowerChar(c)] + LowerEach(rest)[0]] + LowerEach(rest)[1..]
  {
    LowerConcat([c], rest[0]);
    assert Lower([c]) == [LowerChar(c)];
  }

  /** Lower-casing commutes with splitting on a separator that is not an
      ASCII letter: the pieces of the lowered text are the lowered pieces. */
  lemma {:induction false} SplitLower(s: string, sep: char)
    requires !IsAsciiLetter(sep)
    ensures Split(Lower(s), sep) == LowerEach(Split(s, sep))
    decreases |s|
  {
    if |s| > 0 {
      var c, t := s[0], s[1..];
      assert s == [c] + t;
      LowerConcat([c], t);
      assert Lower(s) == [LowerChar(c)] + Lower(t);
      SplitLower(t, sep);
      SplitCons(c, t, sep);
      SplitCons(LowerChar(c), Lower(t), sep);
      if c != sep {
        LowerEachCons(c, Split(t, sep));
      }
    }
  }

  lemma LastSegmentLower(s: string, sep: char)
    requires !IsAsciiLetter(sep)
    ensures LastSegment(Lower(s), sep) == Lower(LastSegment(s, sep))
  {
    SplitLower(s, sep);
    var parts := Split(s, sep);
    assert Last(LowerEach(parts)) == Lower(Last(parts));
  }

  // ---------------------------------------------------------------------
  // trim
  // ---------------------------------------------------------------------

  /** The WhiteSpace and LineTerminator code points of ECMAScript, which `trim` removes. */
  predicate IsJsWhitespace(c: char) {
    || c == '\t' || c == '\n' || c == '\U{000B}' || c == '\U{000C}' || c == '\r' || c == ' '
    || c == '\U{00A0}' || c == '\U{1680}' || ('\U{2000}' <= c <= '\U{200A}')
    || c == '\U{2028}' || c == '\U{2029}' || c == '\U{202F}' || c == '\U{205F}'
    || c == '\U{3000}' || c == '\U{FEFF}'
  }

  predicate AllWhitespace(s: string) {
    forall i :: 0 <= i < |s| ==> IsJsWhitespace(s[i])
  }

  /** `s` is `core` with whitespace `lead` in front and whitespace `trail` behind. */
  predicate WhitespacePadded(s: string, lead: string, core: string, trail: string) {
    s == lead + core + trail && AllWhitespace(lead) && AllWhitespace(trail)
  }

  /** Drops leading whitespace: the result is the suffix of `s` that starts at its first non-whitespace character. */
  function TrimStart(s: string): (r: string)
    ensures |r| <= |s| && r == s[|s| - |r|..]
    ensures AllWhitespace(s[..|s| - |r|])
    ensures r == [] || !IsJsWhitespace(r[0])
    decreases |s|
  {
    if |s| > 0 && IsJsWhitespace(s[0]) then TrimStart(s[1..]) else s
  }

  /** Drops trailing whitespace: the result is the prefix of `s` that ends at its last non-whitespace character. */
  function TrimEnd(s: string): (r: string)
    ensures |r| <= |s| && r == s[..|r|]
    ensures AllWhitespace(s[|r|..])
    ensures r == [] || !IsJsWhitespace(r[|r| - 1])
    decreases |s|
  {
    if |s| > 0 && IsJsWhitespace(s[|s| - 1]) then TrimEnd(s[..|s| - 1]) else s
  }

  /** `s.trim()`: the text between the leading and the trailing whitespace. */
  function Trim(s: string): (r: string)
    ensures r == [] <==> AllWhitespace(s)
    ensures r == [] || (!IsJsWhitespace(r[0]) && !IsJsWhitespace(r[|r| - 1]))
    ensures exists lead, trail :: WhitespacePadded(s, lead, r, trail)
  {
    TrimShape(s);
    TrimEnd(TrimStart(s))
  }

  lemma TrimShape(s: string)
    ensures TrimEnd(TrimStart(s)) == [] <==> AllWhitespace(s)
    ensures var r := TrimEnd(TrimStart(s)); r == [] || !IsJsWhitespace(r[0])
    ensures exists lead, trail :: WhitespacePadded(s, lead, TrimEnd(TrimStart(s)), trail)
  {
    var t := TrimStart(s);
    var r := TrimEnd(t);
    TrimEndEmpty(t);
    TrimStartEmpty(s);
    if r == [] {
      assert AllWhitespace(t);
      assert t == [];
    } else {
      assert r[0] == t[0];
    }
    TrimSplitsInput(s);
  }

  lemma TrimSplitsInput(s: string)
    ensures exists lead, trail :: WhitespacePadded(s, lead, TrimEnd(TrimStart(s)), trail)
  {
    var t := TrimStart(s);
    var r := TrimEnd(t);
    var lead := s[..|s| - |t|];
    var trail := t[|r|..];
    PaddedBy(s, lead, t, r, trail);
  }

  lemma PaddedBy(s: string, lead: string, t: string, r: string, trail: string)
    requires |t| <= |s| && t == s[|s| - |t|..] && lead == s[..|s| - |t|]
    requires |r| <= |t| && r == t[..|r|] && trail == t[|r|..]
    requires AllWhitespace(lead) && AllWhitespace(trail)
    ensures WhitespacePadded(s, lead, r, trail)
  {
    assert t == r + trail;
    assert s == lead + t;
    assert s == lead + r + trail;
  }

  /** Only whitespace is trimmed away entirely from the front. */
  lemma TrimStartEmpty(s: string)
    ensures TrimStart(s) == [] <==> AllWhitespace(s)
  {
    if TrimStart(s) == [] {
      assert s[..|s|] == s;
    }
  }

  /** Only whitespace is trimmed away entirely from the back. */
  lemma TrimEndEmpty(s: string)
    ensures TrimEnd(s) == [] <==> AllWhitespace(s)
  {
    if TrimEnd(s) == [] {
      assert s[0..] == s;
    }
  }
}

=== FILE: wrappers.dfy ===
/** The optional value used for JavaScript's `undefined` and SQL's NULL. */
module Wrappers {

  datatype Option<+T> = None | Some(value: T)
}
